=== FILE: README.md ===
# scvimadz path helpers and mock storage, modelled in Dafny

This project models the two parts of the scvi model zoo (`scvimadz`) that hold
real logic:

- the path helpers `dirname` and `filename`, which split a string on `/` and
  keep everything before the last separator, or the last piece;
- the storage interface `BaseStorage` (a storage is a set of unique keys;
  downloading a listed key yields the full path of the downloaded file, and
  any other key raises an error) and its one working backend, the test `MockStorage`, whose
  constructor validates `data_type` and removes zipped datasets, and whose
  `download_file` guards on membership and builds the destination path.

Files:

- `results.dfy` — module `Results`: `Option` (Python's `Optional`) and
  `Result` (a value or the error a call raises).
- `path_utils.dfy` — module `PathUtils`: `Split` (`str.split("/")`), `Join`
  (`"/".join`), `Filename`, `Dirname`, and their laws.
- `posix_path.dfy` — module `PosixPath`: `JoinPath`, the two-argument `os.path.join`
  rule (an absolute second part replaces the first; otherwise a separator is
  inserted unless the first part is empty or already ends with one).
- `base_storage.dfy` — module `BaseStorage`: the error causes and the
  interface contract `Honours`.
- `mock_storage.dfy` — module `MockStorage`: the `ValueError` messages,
  `New` (the constructor), `ListKeys`, `DownloadFile`.

The storage is immutable: a data directory is the set of names it lists, and
every operation is a pure function returning `Ok(value)` or `Err(error)`.
The directory containing the mock module (`Path(__file__).parent.absolute()`)
is a parameter of `New`. The listing before construction (`os.listdir`) is a
parameter too.

## Notes on the code

- `MockStorage.download_file` copies the file only when `save_path` is truthy (not `None`, not `""`), and names the copy after the last `/`-piece of the data-directory path of the key. Otherwise it copies nothing and returns the file's own path in the data directory.
- The mock raises `ValueError` for an unlisted key (tests/mock/_mock_storage.py:36); the interface itself only says an error is raised. `StorageError.KeyNotFound` is the model's name for that error.
- `list_keys` returns a list (`os.listdir`). Its entries are distinct names, so the model uses a set.

## Model

| member | source | states |
|---|---|---|
| PathUtils.Split | scvimadz/_utils.py:2 | `str.split("/")` always yields at least one piece, even for `""`, so `[-1]` and `[:-1]` are defined for every input; no piece contains `/` |
| PathUtils.Join | scvimadz/_utils.py:2 | joining n ≥ 1 separator-free pieces puts exactly n - 1 separators in the result |
| PathUtils.JoinSplit | scvimadz/_utils.py:1-6 | `"/".join(s.split("/")) == s` for every string `s` |
| PathUtils.SplitJoin | scvimadz/_utils.py:1-6 | splitting the join of a non-empty list of separator-free pieces gives that list back |
| PathUtils.SplitLength | scvimadz/_utils.py:1-6 | a string splits into one more piece than it has separators |
| PathUtils.Filename | scvimadz/_utils.py:5-6 | `filename(p)` contains no `/`, is a suffix of `p`, and is exactly the text after the last `/` (all of `p` when there is none) |
| PathUtils.Dirname | scvimadz/_utils.py:1-2 | `dirname(p)` is a prefix of `p`: the text before the last `/`, or `""` when `p` has no `/` |
| PathUtils.Reconstruct | scvimadz/_utils.py:1-6 | if `p` contains `/`, then `dirname(p) + "/" + filename(p) == p` |
| PathUtils.NoSepPath | scvimadz/_utils.py:1-6 | if `p` has no `/`, then `dirname(p) == ""` and `filename(p) == p` |
| PathUtils.DirnameDropsOneSep | scvimadz/_utils.py:1-2 | if `p` contains `/`, `dirname(p)` has exactly one `/` fewer than `p` |
| PathUtils.DirnameLimit | scvimadz/_utils.py:1-2 | applying `dirname` repeatedly terminates at a separator-free string, namely the first piece of `p.split("/")` |
| PathUtils.TrailingSep | scvimadz/_utils.py:1-6 | a path ending in `/` has an empty `filename` and its `dirname` is the path without that last `/` |
| PosixPath.JoinPath | tests/mock/_mock_storage.py:37 | `os.path.join(a, b)`: an absolute `b` is the result; otherwise the result is `a`, then a `/` unless `a` is empty or already ends with one, then `b` (the clauses together determine the result) |
| PosixPath.JoinKeepsFilename | tests/mock/_mock_storage.py:37-39 | the last `/`-piece of `os.path.join(a, b)` is the last piece of `b`, so the copy is named after the key's last piece |
| PosixPath.JoinPlainName | tests/mock/_mock_storage.py:20 | joining a directory not ending in `/` with a separator-free name gives `dir/name`, whose `dirname` is `dir` and whose `filename` is `name` |
| MockStorage.Message | tests/mock/_mock_storage.py:14-36 | the mock's `ValueError` texts (lines 14-18 and 36) name the rejected `data_type` or the missing key at a fixed position |
| MockStorage.EndsWith | tests/mock/_mock_storage.py:26 | `elem.endswith(".zip")`: the string's last characters are, one by one, those of the suffix (and it is at least as long) |
| MockStorage.EndsWithAppend | tests/mock/_mock_storage.py:26 | a string ends with a suffix exactly when it is some string followed by that suffix |
| MockStorage.Truthy | tests/mock/_mock_storage.py:38 | `if self._save_path`: holds exactly when the save path is neither `None` nor `""` |
| MockStorage.KindDirName | tests/mock/_mock_storage.py:19 | `dir_name` is `"datasets"` or `"models"`, a single path piece without `/` |
| MockStorage.ParseDirName | tests/mock/_mock_storage.py:13-19 | each kind's directory name is an accepted `data_type` that parses back to that kind |
| MockStorage.ParseDataType | tests/mock/_mock_storage.py:13-19 | only `"datasets"` and `"models"` are accepted (anything else is `ValueError`), and the directory chosen for an accepted value is named by that value |
| MockStorage.RemoveArchives | tests/mock/_mock_storage.py:24-29 | the listing with the `.zip` entries removed: no remaining entry ends in `.zip`, every other entry is still there, and no entry of the old listing is otherwise changed (the extracted files themselves are not modelled; see Left out) |
| MockStorage.New | tests/mock/_mock_storage.py:12-29 | the constructor fails with `ValueError` exactly for an unknown `data_type`; otherwise the data directory's last piece is `data_type`, its `dirname` is the module directory, it is absolute when the module directory is, the save path is kept, `"models"` keeps the listing and `"datasets"` drops exactly the `.zip` entries |
| MockStorage.DataDir | tests/mock/_mock_storage.py:19-20 | the data directory `os.path.join(module_dir, dir_name)` has `dir_name` as last piece, the module directory as `dirname` (when that does not end in `/`), and is absolute when the module directory is |
| MockStorage.ListKeysAreDownloadable | tests/mock/_mock_storage.py:31-36 | `list_keys()` returns all keys: a key is listed exactly when `download_file` accepts it, and every other key is refused |
| MockStorage.ListKeysAfterNew | tests/mock/_mock_storage.py:24-32 | right after construction, the keys are the listing for `"models"` and the listing without its `.zip` entries for `"datasets"` |
| BaseStorage.Honours | scvimadz/storage/base/_base_storage.py:22-41 | the interface: every listed key downloads to an absolute path, and every other key gives `KeyNotFound` naming it |
| BaseStorage.HonoursFixesKeys | scvimadz/storage/base/_base_storage.py:22-41 | the listing of a storage that honours the interface is fixed by its download operation: two such listings are equal |
| MockStorage.DownloadFile | tests/mock/_mock_storage.py:34-42 | fails with `ValueError` (key not found) exactly when the key is not listed; otherwise returns a path whose last `/`-piece is the key's last piece |
| MockStorage.HonoursBaseStorage | scvimadz/storage/base/_base_storage.py:22-41 | with an absolute data directory and an absolute (or unset) save path, the mock meets the interface: the downloadable keys are exactly the listed keys, each downloads to a full path, and every other key is refused as not found |
| MockStorage.DownloadNoSavePath | tests/mock/_mock_storage.py:37-42 | with `save_path` `None` or `""`, a listed key is returned as exactly `os.path.join(data_dir, key)` |
| MockStorage.DownloadInDataDir | tests/mock/_mock_storage.py:37-42 | with `save_path` `None` or `""`, a listed key not starting with `/` is returned as a path inside the data directory: the directory, then a `/`, then the rest |
| PosixPath.JoinInside | tests/mock/_mock_storage.py:37 | `os.path.join(a, b)` with a relative `b` lies inside `a`: it starts with `a` followed by a separator |
| MockStorage.DownloadFullPath | tests/mock/_mock_storage.py:34-42 | with an absolute data directory and an absolute save path (if set), every successful download returns an absolute path, the interface's "full path" |
| MockStorage.DownloadPlainKeyInDataDir | tests/mock/_mock_storage.py:37-42 | with `save_path` `None` or `""` and a data directory not ending in `/`, a listed key without `/` is returned as `data_dir/key` |
| MockStorage.DownloadInSavePath | tests/mock/_mock_storage.py:37-41 | with `save_path` set, a listed key is copied to `os.path.join(save_path, filename(key))`: the last `/`-piece of `data_dir/key` is the key's own last piece, whatever the data directory |
| MockStorage.DownloadPlainKeyInSavePath | tests/mock/_mock_storage.py:38-41 | with a `save_path` ending in `/` (as the test fixture provides), a listed key without `/` is copied to `save_path + key` |

## Left out

- File-system effects (`os.listdir`, `shutil.copy`, `shutil.unpack_archive`, `os.remove`): the directory is a set of names, and the copy is represented only by the path returned.
- MockStorage.New / MockStorage.RemoveArchives: assume the extracted contents of each `.zip` do not appear in the data directory. `unpack_archive` is called without a target directory (tests/mock/_mock_storage.py:28), so where they land depends on the working directory and the archive's member paths; the comment "Unzip those here" and the reference tests, which read a dataset that is stored zipped, suggest they are meant to appear in the data directory. The real listing after construction may then also hold the extracted files, which the model omits. Extraction failures are not modelled either.
- MockStorage.ListKeysAfterNew: carries the assumption of `MockStorage.New`: for `"datasets"`, the contents extracted from the `.zip` archives are taken not to appear in the data directory, so the stated listing may lack the extracted files the real one holds.
- `list_keys` returns a Python list; it is a set here because keys are unique and `os.listdir` lists each name once. Listing order is not modelled.
- `download_file` does not change the data directory: in this model that holds by construction, since `DownloadFile` returns only a path and the storage value is immutable.
- MockStorage.DownloadFile: with a truthy `save_path`, the `Ok` result assumes the `shutil.copy` at tests/mock/_mock_storage.py:40 succeeds. The program raises instead when the listed entry is a subdirectory (`IsADirectoryError`), when the save directory is missing (`FileNotFoundError`) or unwritable (`PermissionError`), or when the save path is the data directory itself (`shutil.SameFileError`). The same assumption stands behind `MockStorage.DownloadInSavePath`, `MockStorage.DownloadFullPath` and `MockStorage.HonoursBaseStorage`.
- MockStorage.HonoursBaseStorage: requires an absolute data directory and an absolute save path. With a relative `save_path` (say `"out/"`) the mock returns a relative path such as `"out/k"`, breaking the interface's "full path" promise; the model does not promise it in that case.
- MockStorage.DownloadInDataDir: requires a key that does not start with `/`. `os.listdir` never yields such a key, and `os.path.join` would return it unchanged, outside the data directory. The exact result for every key, that one included, is stated by `MockStorage.DownloadNoSavePath`.
- `scvimadz/storage/_zenodo.py`: every operation raises `NotImplementedError`, so there is no behaviour to model; the remote upload, draft and publish protocol does not appear in the code.
- The reference layer (`GenericReference`, `BaseReference`, `TabulaSapiens`), the CSV metadata index and the `save_*`/`load_*` operations: they hold no logic in the code beyond storing two objects, or depend on pandas and the scvi model classes, or are not present at all.
- Package metadata and logging (`scvimadz/__init__.py`) and pytest option wiring (`conftest.py`).

=== FILE: base_storage.dfy ===
/** The storage interface of `scvimadz/storage/base/_base_storage.py`.

    A storage holds objects under unique keys.  Listing returns all keys;
    downloading a listed key yields the full path of the downloaded file,
    and downloading any other key raises an error.  The interface has no
    code of its own, so it is stated here as the contract `Honours` that a
    backend's listing and download operation must satisfy together. */
module BaseStorage {
  import opened Results
  import PosixPath

  /** The errors raised by the storages of this model; the mock raises
      both as `ValueError`. */
  datatype StorageError =
    | UnrecognizedDataType(dataType: string)
    | KeyNotFound(key: string)

  /** `keys` (a set: keys are unique) and `download` behave as the interface
      promises: every listed key downloads to a full (absolute) path, and
      every other key is refused with `KeyNotFound` naming it. */
  ghost predicate Honours(keys: set<string>, download: string -> Result<string, StorageError>): (ok: bool)
    ensures ok ==> forall key :: key in keys ==> download(key).Ok? && PosixPath.IsAbsolute(download(key).value)
    ensures ok ==> forall key :: key !in keys ==> download(key) == Err(KeyNotFound(key))
  {
    forall key ::
      && (download(key).Ok? <==> key in keys)
      && (download(key).Err? ==> download(key).error == KeyNotFound(key))
      && (download(key).Ok? ==> PosixPath.IsAbsolute(download(key).value))
  }

  /** The listing of an honouring storage is fixed by its download
      operation: two listings that both honour it are equal. */
  lemma HonoursFixesKeys(keys1: set<string>, keys2: set<string>, download: string -> Result<string, StorageError>)
    requires Honours(keys1, download) && Honours(keys2, download)
    ensures keys1 == keys2
  {
    forall key ensures key in keys1 <==> key in keys2 {
      assert key in keys1 <==> download(key).Ok?;
    }
  }
}

=== FILE: mock_storage.dfy ===
/** `MockStorage` of `tests/mock/_mock_storage.py`: the file-system backend
    used by the tests.  Its data directory is abstracted as the set of names
    it lists; the directory holding the mock module itself is a parameter. */
module MockStorage {
  import opened Results
  import opened BaseStorage
  import opened PathUtils
  import PosixPath

  /** The text of the `ValueError` the mock raises for each cause. */
  function Message(e: StorageError): (m: string)
    ensures e.KeyNotFound? ==> |m| > 4 + |e.key| && m[4..4 + |e.key|] == e.key
    ensures e.UnrecognizedDataType? ==> |m| > 24 + |e.dataType| && m[24..24 + |e.dataType|] == e.dataType
  {
    match e
    case UnrecognizedDataType(t) =>
      "Unrecognized data_type: " + t + ". Must be one of: \"datasets\", \"models\"."
    case KeyNotFound(k) => "Key " + k + " not found."
  }

  /** The two kinds of object a mock storage can hold. */
  datatype DataType = Datasets | Models

  /** Datasets are kept zipped; the constructor unpacks and deletes these. */
  const ArchiveSuffix: string := ".zip"

  /** A constructed mock storage: the path of its data directory, the
      optional directory downloads are copied into, and the directory's entries. */
  datatype Mock = Mock(dataDir: string, savePath: Option<string>, entries: set<string>)

  /** `s.endswith(suffix)`: the last `|suffix|` characters of `s` are,
      one by one, those of `suffix`. */
  predicate EndsWith(s: string, suffix: string): (b: bool)
    ensures b <==> |suffix| <= |s| && forall i :: 0 <= i < |suffix| ==> s[|s| - |suffix| + i] == suffix[i]
  {
    |suffix| <= |s| && s[|s| - |suffix|..] == suffix
  }

  /** A string ends with `suffix` exactly when it is some string followed by
      `suffix`. */
  lemma EndsWithAppend(s: string, suffix: string)
    ensures EndsWith(s + suffix, suffix)
    ensures EndsWith(s, suffix) ==> s == s[..|s| - |suffix|] + suffix
  {
    assert (s + suffix)[|s|..] == suffix;
  }

  /** Python truthiness of an optional string: the falsy values are `None`
      and `""`. */
  predicate Truthy(p: Option<string>): (b: bool)
    ensures b <==> p != None && p != Some("")
  {
    p.Some? && |p.value| > 0
  }

  /** The name of the directory holding objects of the given kind: one of
      the two accepted `data_type` values, a single path piece. */
  function KindDirName(t: DataType): (name: string)
    ensures name == "datasets" || name == "models"
    ensures Sep !in name
  {
    match t
    case Datasets => "datasets"
    case Models => "models"
  }

  /** The check of `data_type`: only "datasets" and "models" are accepted,
      and the directory chosen for an accepted value is named by that value. */
  function ParseDataType(dataType: string): (r: Result<DataType, StorageError>)
    ensures r.Ok? <==> dataType == "datasets" || dataType == "models"
    ensures r.Err? ==> r.error == UnrecognizedDataType(dataType)
    ensures r.Ok? ==> KindDirName(r.value) == dataType
  {
    if dataType == "datasets" then Ok(Datasets)
    else if dataType == "models" then Ok(Models)
    else Err(UnrecognizedDataType(dataType))
  }

  /** The directory name of each kind is accepted as a `data_type` and
      parsed back to that kind. */
  lemma ParseDirName(t: DataType)
    ensures ParseDataType(KindDirName(t)) == Ok(t)
  {
    match t
    case Datasets =>
    case Models =>
  }

  /** The entries left once every `.zip` entry has been unpacked and removed. */
  function RemoveArchives(listing: set<string>): (kept: set<string>)
    ensures kept <= listing
    ensures forall e :: e in kept ==> !EndsWith(e, ArchiveSuffix)
    ensures forall e :: e in listing && !EndsWith(e, ArchiveSuffix) ==> e in kept
  {
    set e | e in listing && !EndsWith(e, ArchiveSuffix)
  }

  /** The data directory `os.path.join(module_dir, dir_name)`: its last
      piece is the directory name, it lies in the module directory, and it
      is absolute when the module directory is. */
  function DataDir(moduleDir: string, t: DataType): (dir: string)
    ensures Filename(dir) == KindDirName(t)
    ensures |moduleDir| > 0 && moduleDir[|moduleDir| - 1] != Sep ==> Dirname(dir) == moduleDir
    ensures PosixPath.IsAbsolute(moduleDir) ==> PosixPath.IsAbsolute(dir)
  {
    var dirName := KindDirName(t);
    NoSepPath(dirName);
    PosixPath.JoinKeepsFilename(moduleDir, dirName);
    var dir := PosixPath.JoinPath(moduleDir, dirName);
    assert |moduleDir| > 0 && moduleDir[|moduleDir| - 1] != Sep ==> Dirname(dir) == moduleDir by {
      if |moduleDir| > 0 && moduleDir[|moduleDir| - 1] != Sep {
        PosixPath.JoinPlainName(moduleDir, dirName);
      }
    }
    dir
  }

  /** `MockStorage(data_type, save_path)` over a data directory whose entries
      are `listing` before construction. */
  function New(dataType: string, moduleDir: string, listing: set<string>, savePath: Option<string>)
    : (r: Result<Mock, StorageError>)
    ensures r.Err? <==> dataType != "datasets" && dataType != "models"
    ensures r.Err? ==> r.error == UnrecognizedDataType(dataType)
    ensures r.Ok? ==> Filename(r.value.dataDir) == dataType
    ensures r.Ok? && |moduleDir| > 0 && moduleDir[|moduleDir| - 1] != Sep
            ==> Dirname(r.value.dataDir) == moduleDir
    ensures r.Ok? && PosixPath.IsAbsolute(moduleDir) ==> PosixPath.IsAbsolute(r.value.dataDir)
    ensures r.Ok? ==> r.value.savePath == savePath
    ensures r.Ok? && dataType == "models" ==> r.value.entries == listing
    ensures r.Ok? && dataType == "datasets" ==>
              forall e :: e in r.value.entries <==> e in listing && !EndsWith(e, ArchiveSuffix)
  {
    match ParseDataType(dataType)
    case Err(e) => Err(e)
    case Ok(t) =>
      var entries := if t == Datasets then RemoveArchives(listing) else listing;
      Ok(Mock(DataDir(moduleDir, t), savePath, entries))
  }

  /** `list_keys()`: the entries of the data directory. */
  function ListKeys(m: Mock): set<string> {
    m.entries
  }

  /** Right after construction the keys are the directory's listing, minus
      the `.zip` archives for datasets. */
  lemma ListKeysAfterNew(dataType: string, moduleDir: string, listing: set<string>, savePath: Option<string>)
    requires New(dataType, moduleDir, listing, savePath).Ok?
    ensures dataType == "models" ==> ListKeys(New(dataType, moduleDir, listing, savePath).value) == listing
    ensures dataType == "datasets" ==>
              ListKeys(New(dataType, moduleDir, listing, savePath).value) == RemoveArchives(listing)
  {
  }

  /** `download_file(key)`: refuses an unlisted key; otherwise the path of
      the key inside the data directory, or, when a save path is set, the
      path the file is copied to there under its last `/`-piece. */
  function DownloadFile(m: Mock, key: string): (r: Result<string, StorageError>)
    ensures r.Err? <==> key !in ListKeys(m)
    ensures r.Err? ==> r.error == KeyNotFound(key)
    ensures r.Ok? ==> Filename(r.value) == Filename(key)
  {
    if key !in ListKeys(m) then Err(KeyNotFound(key))
    else
      var filePath := PosixPath.JoinPath(m.dataDir, key);
      PosixPath.JoinKeepsFilename(m.dataDir, key);
      if Truthy(m.savePath) then
        var name := Filename(filePath);
        PosixPath.JoinKeepsFilename(m.savePath.value, name);
        NoSepPath(name);
        Ok(PosixPath.JoinPath(m.savePath.value, name))
      else
        Ok(filePath)
  }

  /** `list_keys()` returns all keys: a key is listed exactly when
      `download_file` accepts it. */
  lemma ListKeysAreDownloadable(m: Mock)
    ensures forall key :: key in ListKeys(m) <==> DownloadFile(m, key).Ok?
  {
  }

  /** Without a (truthy) save path, a listed key is returned as
      `os.path.join(data_dir, key)`, with no copy made. */
  lemma DownloadNoSavePath(m: Mock, key: string)
    requires key in ListKeys(m) && !Truthy(m.savePath)
    ensures DownloadFile(m, key) == Ok(PosixPath.JoinPath(m.dataDir, key))
  {
  }

  /** Without a (truthy) save path, a listed key that is not absolute is
      returned as a path inside the data directory: the directory followed
      by a separator (its own trailing one, or one inserted). */
  lemma DownloadInDataDir(m: Mock, key: string)
    requires key in ListKeys(m) && !Truthy(m.savePath)
    requires |key| == 0 || key[0] != Sep
    ensures DownloadFile(m, key).Ok?
    ensures PosixPath.Inside(m.dataDir, DownloadFile(m, key).value)
  {
    assert DownloadFile(m, key) == Ok(PosixPath.JoinPath(m.dataDir, key));
    PosixPath.JoinInside(m.dataDir, key);
  }


  /** Without a (truthy) save path, a listed plain name is returned as the
      path of that name directly inside the data directory (whose `dirname`
      is then the data directory, by `PosixPath.JoinPlainName`). */
  lemma DownloadPlainKeyInDataDir(m: Mock, key: string)
    requires key in ListKeys(m) && !Truthy(m.savePath) && Sep !in key
    requires |m.dataDir| > 0 && m.dataDir[|m.dataDir| - 1] != Sep
    ensures DownloadFile(m, key) == Ok(m.dataDir + [Sep] + key)
  {
    var path := PosixPath.JoinPath(m.dataDir, key);
    assert DownloadFile(m, key) == Ok(path);
    PosixPath.JoinPlainName(m.dataDir, key);
  }

  /** With a save path set, the file is copied into the save path under
      the last piece of the key, whatever the data directory is. */
  lemma DownloadInSavePath(m: Mock, key: string)
    requires key in ListKeys(m) && Truthy(m.savePath)
    ensures DownloadFile(m, key) == Ok(PosixPath.JoinPath(m.savePath.value, Filename(key)))
  {
    PosixPath.JoinKeepsFilename(m.dataDir, key);
  }

  /** With a save path ending in a separator, as the tests use, a listed
      plain name is copied to the save path followed by that name. */
  lemma DownloadPlainKeyInSavePath(m: Mock, key: string)
    requires key in ListKeys(m) && Truthy(m.savePath) && Sep !in key
    requires m.savePath.value[|m.savePath.value| - 1] == Sep
    ensures DownloadFile(m, key) == Ok(m.savePath.value + key)
  {
    DownloadInSavePath(m, key);
    NoSepPath(key);
  }

  /** With an absolute data directory (the module directory comes from
      `Path.absolute()`) and an absolute save path, every download yields
      a full path, as the interface promises. */
  lemma DownloadFullPath(m: Mock, key: string)
    requires PosixPath.IsAbsolute(m.dataDir)
    requires Truthy(m.savePath) ==> PosixPath.IsAbsolute(m.savePath.value)
    ensures DownloadFile(m, key).Ok? ==> PosixPath.IsAbsolute(DownloadFile(m, key).value)
  {
    if key in ListKeys(m) {
      if Truthy(m.savePath) {
        DownloadInSavePath(m, key);
        var name := Filename(key);
        assert !PosixPath.IsAbsolute(name);
        var path := PosixPath.JoinPath(m.savePath.value, name);
        assert path[..|m.savePath.value|] == m.savePath.value;
        assert path[0] == m.savePath.value[0];
      } else {
        var path := PosixPath.JoinPath(m.dataDir, key);
        assert DownloadFile(m, key) == Ok(path);
        if !PosixPath.IsAbsolute(key) {
          assert path[..|m.dataDir|] == m.dataDir;
          assert path[0] == m.dataDir[0];
        }
      }
    }
  }

  /** The mock storage meets the storage interface when its data directory
      and its save path (if set) are absolute: exactly the listed keys
      download, each to a full path, and every other key is refused as not
      found. */
  lemma HonoursBaseStorage(m: Mock)
    requires PosixPath.IsAbsolute(m.dataDir)
    requires Truthy(m.savePath) ==> PosixPath.IsAbsolute(m.savePath.value)
    ensures Honours(ListKeys(m), k => DownloadFile(m, k))
  {
    forall key
      ensures DownloadFile(m, key).Ok? ==> PosixPath.IsAbsolute(DownloadFile(m, key).value)
    {
      DownloadFullPath(m, key);
    }
  }
}

=== FILE: path_utils.dfy ===
/** The path helpers `dirname` and `filename` of `scvimadz/_utils.py`.

    Both are written in terms of Python's `str.split("/")` and `"/".join`,
    which are modelled here as `Split` and `Join` over `seq<char>`.  Every
    input, the empty string included, splits into at least one segment, so
    both helpers are total. */
module PathUtils {

  /** The path separator. */
  const Sep: char := '/'

  /** Number of occurrences of `c` in `s`. */
  function Count(s: string, c: char): (n: nat)
    ensures n <= |s|
    ensures n == 0 <==> c !in s
  {
    if |s| == 0 then 0 else (if s[0] == c then 1 else 0) + Count(s[1..], c)
  }

  lemma {:induction false} CountConcat(a: string, b: string, c: char)
    ensures Count(a + b, c) == Count(a, c) + Count(b, c)
    decreases |a|
  {
    if |a| == 0 {
      assert a + b == b;
    } else {
      assert (a + b)[0] == a[0];
      assert (a + b)[1..] == a[1..] + b;
      CountConcat(a[1..], b, c);
    }
  }

  /** `s.split("/")`: the maximal separator-free pieces of `s`, in order.
      There is always at least one piece, possibly empty. */
  function Split(s: string): (parts: seq<string>)
    ensures |parts| >= 1
    ensures forall i :: 0 <= i < |parts| ==> Sep !in parts[i]
    decreases |s|
  {
    if |s| == 0 then [""]
    else
      var rest := Split(s[1..]);
      if s[0] == Sep then [""] + rest
      else [[s[0]] + rest[0]] + rest[1..]
  }

  /** `"/".join(parts)`; the empty list joins to the empty string. */
  function Join(parts: seq<string>): (s: string)
    ensures |parts| >= 1 && (forall i :: 0 <= i < |parts| ==> Sep !in parts[i])
            ==> Count(s, Sep) == |parts| - 1
  {
    if |parts| == 0 then ""
    else if |parts| == 1 then parts[0]
    else
      CountConcat(parts[0] + [Sep], Join(parts[1..]), Sep);
      CountConcat(parts[0], [Sep], Sep);
      parts[0] + [Sep] + Join(parts[1..])
  }

  /** A separator-free string is a single piece. */
  lemma {:induction false} SplitNoSep(s: string)
    requires Sep !in s
    ensures Split(s) == [s]
    decreases |s|
  {
    if |s| > 0 {
      assert Sep !in s[1..];
      SplitNoSep(s[1..]);
      assert [s[0]] + s[1..] == s;
    }
  }

  /** Splitting distributes over a separator. */
  lemma {:induction false} SplitConcat(a: string, b: string)
    ensures Split(a + [Sep] + b) == Split(a) + Split(b)
    decreases |a|
  {
    var s := a + [Sep] + b;
    if |a| == 0 {
      assert s == [Sep] + b;
      assert s[1..] == b;
    } else {
      assert s[0] == a[0];
      assert s[1..] == a[1..] + [Sep] + b;
      SplitConcat(a[1..], b);
    }
  }

  /** Prefixing the first piece with a character prefixes the join with it. */
  lemma JoinPrependChar(c: char, parts: seq<string>)
    requires |parts| >= 1
    ensures Join([[c] + parts[0]] + parts[1..]) == [c] + Join(parts)
  {
    var q := [[c] + parts[0]] + parts[1..];
    assert q[1..] == parts[1..];
  }

  /** `"/".join(s.split("/")) == s` for every string. */
  lemma {:induction false} JoinSplit(s: string)
    ensures Join(Split(s)) == s
    decreases |s|
  {
    if |s| > 0 {
      var rest := Split(s[1..]);
      JoinSplit(s[1..]);
      if s[0] == Sep {
        var parts := [""] + rest;
        assert parts[1..] == rest;
        assert Join(parts) == "" + [Sep] + Join(rest);
        assert s == [Sep] + s[1..];
      } else {
        assert Split(s) == [[s[0]] + rest[0]] + rest[1..];
        JoinPrependChar(s[0], rest);
        assert s == [s[0]] + s[1..];
      }
    }
  }

  /** Splitting a join of separator-free pieces gives the pieces back. */
  lemma {:induction false} SplitJoin(parts: seq<string>)
    requires |parts| >= 1
    requires forall i :: 0 <= i < |parts| ==> Sep !in parts[i]
    ensures Split(Join(parts)) == parts
    decreases |parts|
  {
    SplitNoSep(parts[0]);
    if |parts| > 1 {
      SplitJoin(parts[1..]);
      SplitConcat(parts[0], Join(parts[1..]));
      assert [parts[0]] + parts[1..] == parts;
    }
  }

  /** Splitting yields one more piece than there are separators. */
  lemma {:induction false} SplitLength(s: string)
    ensures |Split(s)| == Count(s, Sep) + 1
  {
    JoinSplit(s);
  }

  /** Index of the last separator in `s`, or -1 when there is none. */
  function LastSep(s: string): (i: int)
    ensures -1 <= i < |s|
    ensures i >= 0 ==> s[i] == Sep
    ensures forall j :: i < j < |s| ==> s[j] != Sep
  {
    if |s| == 0 then -1
    else if s[|s| - 1] == Sep then |s| - 1
    else LastSep(s[..|s| - 1])
  }

  /** The pieces of `s` are those of the text before its last separator,
      followed by the text after it. */
  lemma SplitAtLastSep(s: string)
    ensures LastSep(s) < 0 ==> Split(s) == [s]
    ensures LastSep(s) >= 0 ==> Split(s) == Split(s[..LastSep(s)]) + [s[LastSep(s) + 1..]]
  {
    var i := LastSep(s);
    if i < 0 {
      SplitNoSep(s);
    } else {
      var tail := s[i + 1..];
      assert forall k :: 0 <= k < |tail| ==> tail[k] == s[i + 1 + k];
      SplitNoSep(tail);
      assert s == s[..i] + [Sep] + tail;
      SplitConcat(s[..i], tail);
    }
  }

  /** `filename(path)`: the last piece of `path.split("/")`, that is, the
      text after the last separator (all of `path` if it has none). */
  function Filename(path: string): (name: string)
    ensures Sep !in name
    ensures name == path[LastSep(path) + 1..]
    ensures |name| <= |path| && path[|path| - |name|..] == name
  {
    SplitAtLastSep(path);
    var parts := Split(path);
    var i := LastSep(path);
    assert parts[|parts| - 1] == path[i + 1..];
    parts[|parts| - 1]
  }

  /** `dirname(path)`: the pieces of `path.split("/")` but the last, joined
      again; that is, the text before the last separator, or "" if none. */
  function Dirname(path: string): (dir: string)
    ensures LastSep(path) < 0 ==> dir == ""
    ensures LastSep(path) >= 0 ==> dir == path[..LastSep(path)]
    ensures |dir| <= |path| && path[..|dir|] == dir
  {
    SplitAtLastSep(path);
    var parts := Split(path);
    var i := LastSep(path);
    if i >= 0 then
      assert parts[..|parts| - 1] == Split(path[..i]);
      JoinSplit(path[..i]);
      Join(parts[..|parts| - 1])
    else
      Join(parts[..|parts| - 1])
  }

  /** A path containing a separator is its dirname, a separator and its filename. */
  lemma Reconstruct(path: string)
    requires Sep in path
    ensures Dirname(path) + [Sep] + Filename(path) == path
  {
    var i := LastSep(path);
    assert path == path[..i] + [Sep] + path[i + 1..];
  }

  /** A separator-free path has an empty dirname and is its own filename. */
  lemma NoSepPath(path: string)
    requires Sep !in path
    ensures Dirname(path) == ""
    ensures Filename(path) == path
  {
  }

  /** Taking the dirname of a path with a separator removes exactly one separator. */
  lemma DirnameDropsOneSep(path: string)
    requires Sep in path
    ensures Count(Dirname(path), Sep) == Count(path, Sep) - 1
  {
    Reconstruct(path);
    CountConcat(Dirname(path) + [Sep], Filename(path), Sep);
    CountConcat(Dirname(path), [Sep], Sep);
  }

  /** A path ending in a separator names no file; its dirname drops that separator. */
  lemma TrailingSep(path: string)
    requires |path| > 0 && path[|path| - 1] == Sep
    ensures Filename(path) == ""
    ensures Dirname(path) == path[..|path| - 1]
  {
  }

  /** The filename of anything after a separator is the filename of that part. */
  lemma FilenameAfterSep(a: string, b: string)
    ensures Filename(a + [Sep] + b) == Filename(b)
  {
    SplitConcat(a, b);
  }

  /** Applying `dirname` until no separator is left: it terminates (each step
      removes one separator) and ends at the first piece of the path. */
  function DirnameLimit(path: string): (top: string)
    ensures Sep !in top
    ensures top == Split(path)[0]
    decreases Count(path, Sep)
  {
    if Sep !in path then
      SplitNoSep(path);
      path
    else
      DirnameDropsOneSep(path);
      SplitAtLastSep(path);
      DirnameLimit(Dirname(path))
  }
}

=== FILE: posix_path.dfy ===
/** The two-argument `os.path.join` of POSIX systems, which the mock storage
    uses to build every path it returns. */
module PosixPath {
  import opened PathUtils

  /** A path that starts at the file-system root. */
  predicate IsAbsolute(p: string) {
    |p| > 0 && p[0] == Sep
  }

  /** `p` names something inside directory `dir`: it starts with `dir`,
      followed by a separator (the directory's own trailing one, or the
      next character of `p`). */
  predicate Inside(dir: string, p: string) {
    && |dir| <= |p|
    && p[..|dir|] == dir
    && (|dir| == 0 || dir[|dir| - 1] == Sep || (|dir| < |p| && p[|dir|] == Sep))
  }

  /** `os.path.join(a, b)`: an absolute `b` replaces `a`; otherwise `b` is
      appended to `a`, with a separator inserted unless `a` is empty or
      already ends with one.  Together the clauses below determine `r`. */
  function JoinPath(a: string, b: string): (r: string)
    ensures IsAbsolute(b) ==> r == b
    ensures !IsAbsolute(b) ==> |a| <= |r| && r[..|a|] == a
    ensures |b| <= |r| && r[|r| - |b|..] == b
    ensures !IsAbsolute(b) && |a| > 0 ==> |b| < |r| && r[|r| - |b| - 1] == Sep
    ensures |r| <= |a| + 1 + |b|
    ensures !IsAbsolute(b) ==> |a| + |b| <= |r|
    ensures !IsAbsolute(b) && (|a| == 0 || a[|a| - 1] == Sep) ==> |r| == |a| + |b|
  {
    if IsAbsolute(b) then b
    else if |a| == 0 || a[|a| - 1] == Sep then a + b
    else a + [Sep] + b
  }

  /** Joining never changes the last piece: the joined path names the same
      file as `b`. */
  lemma JoinKeepsFilename(a: string, b: string)
    ensures Filename(JoinPath(a, b)) == Filename(b)
  {
    if IsAbsolute(b) || |a| == 0 {
    } else if a[|a| - 1] == Sep {
      assert a + b == a[..|a| - 1] + [Sep] + b;
      FilenameAfterSep(a[..|a| - 1], b);
    } else {
      FilenameAfterSep(a, b);
    }
  }

  /** Joining a relative `b` onto `a` gives a path inside `a`. */
  lemma JoinInside(a: string, b: string)
    requires !IsAbsolute(b)
    ensures Inside(a, JoinPath(a, b))
  {
    if |a| > 0 && a[|a| - 1] != Sep {
      assert JoinPath(a, b) == a + [Sep] + b;
      assert JoinPath(a, b)[|a|] == Sep;
    }
  }

  /** Joining a directory that does not end in a separator with a plain name
      yields a path whose dirname is that directory and whose filename is the name. */
  lemma JoinPlainName(dir: string, name: string)
    requires |dir| > 0 && dir[|dir| - 1] != Sep
    requires Sep !in name
    ensures JoinPath(dir, name) == dir + [Sep] + name
    ensures Dirname(JoinPath(dir, name)) == dir
    ensures Filename(JoinPath(dir, name)) == name
  {
    var r := dir + [Sep] + name;
    assert Sep in r by { assert r[|dir|] == Sep; }
    Reconstruct(r);
    FilenameAfterSep(dir, name);
    NoSepPath(name);
  }

}

=== FILE: results.dfy ===
/** Failure-carrying values shared by the storage modules: an optional value
    (Python's `Optional[...]`) and a result that is either a value or the
    error a call would have raised. */
module Results {

  datatype Option<+T> = None | Some(value: T)

  datatype Result<+T, +E> = Ok(value: T) | Err(error: E)
}
